=== FILE: README.md ===
# Nifty close-price prediction contest: a Dafny model

The server runs a public contest in which participants guess the NIFTY 50 index price.
An administrator opens contests, removes predictions, imports predictions in bulk from a
CSV file and manages the broker credentials. A once-a-minute timer fetches the index
quote from the broker. This project models the logic behind those features. It has four
parts, one or two modules each.

- **Token and price state** (`market.dfy`, module `Market`). This part covers:
  - the six module-level variables (`currentNiftyPrice`, `lastClosePrice`,
    `accessToken`, `isTokenValid`, `currentRequestToken`, `tokenError`);
  - the `nifty_prices` table;
  - the transitions that change them: the token exchange, the quote fetch, the timer
    tick, the guarded start of fetching, the operator's direct token set and the refresh
    route.

  Each broker reply is an argument (`Reply<T>`: a body, an HTTP error response, or a
  transport error). Every transition is first a pure function of the old state and the
  reply (`Generate`, `Fetch`, `TimerTick`, `SetAccessToken`). The class `PriceFeed` holds the
  variables as fields, changes them step by step in one method per transition, and
  proves that each method's new state equals the function's result. Its invariant is
  that the in-memory price, when set, is the latest stored sample.
- **The prediction band** (`band.dfy`, module `Band`). This is the form check of
  `POST /predict`. A value is accepted in the closed band
  `[close - 0.3·close, close + 0.3·close]`. An unknown close (`null` or `0`) rejects
  every submission.
- **The bulk-import row filter** (`bulk_import.dfy`, module `BulkImport`). This is the
  per-row loop that builds the batch. It keeps the rows that have a name and a number
  (and that are in the band, when a close is known), in file order. A row the
  parser delivers but the filter rejects is skipped, and the batch goes on.
- **The contest store and the leaderboard** (`contests.dfy` and `ranking.dfy`).
  - The class `ContestStore` holds the two tables and their autoincrement counters. It
    covers the default seed, new contests, deletion by id, form submission and bulk
    insertion.
  - `Ranking` gives the home page's top three predictions of the active contest, ordered
    by distance to a reference price.

JavaScript truthiness is kept explicit in `Js`:
- `Present` is a string that is neither missing nor empty.
- `Known` is a price that is neither missing nor zero.
- `Trim` models `String.prototype.trim`.

`parseFloat` is a parameter of type `string -> Option<real>`, where `None` stands for NaN.
The form handler has no NaN check, so an unparsable value passes the band check (both
comparisons are false). It then reaches the insert, where SQLite stores NaN as NULL and
the `NOT NULL` column rejects it. The model reports this as `InsertFailed`. The bulk path
does check for NaN.

Some behaviours of the code are easy to misread; the model follows the code as written:
- A successful exchange records a new request token only when one was passed explicitly.
- With no reference price, the leaderboard does not report "no reference". The query
  then orders by NULL and still shows up to three rows.
- The startup fetch and the manual start also refuse the placeholder token
  `your_access_token_here`.
- The bulk filter rejects only NaN, not infinities.

## Model

| member | source | states |
|---|---|---|
| Js.Trim | server.js:368 | The trimmed name is the slice of the cell left after removing white space at both ends: it has no leading or trailing white space, is no longer than the cell, and is empty exactly when the cell is blank |
| Market.TokenToUse | server.js:71 | The effective request token is the explicit one if truthy, else the current one if truthy, else the configured default; it is truthy iff one of the three is |
| Market.ExchangeError | server.js:117-125 | The failure message is the broker's message if present, else the fixed expired-token text on HTTP 403, else the error's own message |
| Market.Generate | server.js:67-129 | The token exchange never touches the prices. Missing credentials: no request is sent, only `tokenError` is set. Otherwise the request carries the key, the effective token and the checksum input. Success happens iff the reply has a token; it then sets the token and validity, clears the error, and moves the request token only when one was passed. A failure invalidates and records `ExchangeError`. A reply without a token gives no result and changes nothing |
| Market.ClassifyFetch | server.js:131-165 | Which branch a quote reply takes: not configured iff the key or access token is falsy; fetched iff configured and the body has the quote; forbidden iff configured and HTTP 403 |
| Market.Fetch | server.js:131-165 | The fetch never touches the tokens or the error text. Success sets both prices and validity and appends exactly one sample. A 403 only clears validity. Anything else changes nothing. The fetch preserves price/sample consistency |
| Market.SetAccessToken | server.js:414-419 | A truthy input becomes the access token, marked valid, with the error cleared and nothing else changed; a falsy input changes nothing |
| Market.TimerTick | server.js:167-171 | A tick with a trusted token is exactly one fetch; a tick while the token is distrusted changes nothing; a tick never touches the tokens or the error text |
| Market.Ticks | server.js:167-171 | Any run of ticks leaves the tokens and the error text as they were |
| Market.TicksWhileInvalidChangeNothing | server.js:167-171 | While the token is not valid, any number of timer ticks leaves the state unchanged, whatever the broker would reply |
| Market.TicksAppendSamples | server.js:152-171 | Timer ticks only append to the sample table, never touch the tokens or error text, and keep the price/sample consistency |
| Market.ForbiddenFetchStopsPolling | server.js:158-171 | After a 403 on a fetch, every later tick keeps the token invalid and both prices and the samples as they were before the 403 |
| Market.FailedExchangeStopsPolling | server.js:117-171 | After the broker rejects the exchange or the call fails (server.js:117-127), later timer ticks change nothing |
| Market.MissingCredentialsMakeNoCall | server.js:69-77 | With missing credentials the outcome of the exchange does not depend on the broker's reply, so no call is made |
| Market.TransitionsKeepPriceConsistent | server.js:150-156 | Exchange, fetch, tick and token set all keep the in-memory price equal to the latest stored sample |
| Market.PriceFeed.constructor | server.js:60-65 | At start both prices are unknown, the token is untrusted, and both tokens come from the environment |
| Market.PriceFeed.GenerateAccessToken | server.js:67-129 | Updating the fields in place gives exactly the state, result and request of `Generate` |
| Market.PriceFeed.FetchNiftyPrice | server.js:131-165 | Updating the fields in place gives exactly the state of `Fetch` |
| Market.PriceFeed.Tick | server.js:167-171 | The new state is `TimerTick` of the old one, so the polling lemmas about `TimerTick` and `Ticks` apply to the timer itself |
| Market.PriceFeed.StartFetching | server.js:439-446 | Fetching starts iff the access token is truthy and not the placeholder; otherwise nothing changes |
| Market.PriceFeed.UpdateAccessToken | server.js:414-437 | Succeeds iff the input is truthy; then the token is set and trusted and a fetch follows; otherwise nothing changes |
| Market.PriceFeed.RefreshToken | server.js:400-412 | Runs the exchange, then fetches only if the exchange succeeded |
| Band.CheckPrediction | server.js:228-259 | Each verdict holds exactly in its own case. Missing name or value gives the required-fields error. Otherwise an unknown close gives the range error, and a parsed number outside the band gives the out-of-range error. The check passes iff both fields are present, the close is known and a parsed value lies in the closed band, so an unparsable value passes. An out-of-range verdict carries both bounds |
| Band.BandIsSeventyToHundredThirtyPercent | server.js:249-253 | For a positive close the band is exactly 70%–130% of the close; for a negative close nothing is in the band |
| BulkImport.KeepRow | server.js:366-384 | A row is kept iff it has two cells, a non-blank trimmed name and a number, and, when a close is known, the number is in the band; it contributes the trimmed name and the number |
| BulkImport.Accepted | server.js:363-384 | The batch built from the rows has at most one entry per row |
| BulkImport.OnData | server.js:366-384 | The handler pushes a row exactly when it has a non-blank trimmed name and a number that, with a known close, lies in the band; nothing else is pushed |
| BulkImport.FilterRows | server.js:363-384 | The push loop builds exactly `Accepted(rows)`, the kept rows tagged with the contest, in file order |
| BulkImport.AcceptedAppend | server.js:363-384 | The filter works row by row: splitting the file splits the batch at the same place |
| BulkImport.BadRowIsSkipped | server.js:366-384 | A delivered row the filter rejects never aborts the batch: the result is as if the row were absent |
| BulkImport.AcceptedSound | server.js:366-384 | Every imported row carries the contest id and a non-blank name, lies in the band when a close is known, and there are no more of them than input rows |
| BulkImport.AcceptedComplete | server.js:366-384 | Every row that passes the checks is imported |
| Contests.ActiveContest | server.js:186 | The contest lookup returns an active row of the table, and returns none iff no row is active |
| Contests.Deactivated | server.js:339 | Every contest is kept in place with only its active flag cleared |
| Contests.ContestName | server.js:340 | The new contest's name is the given one if truthy, else 'New Contest' |
| Contests.Without | server.js:347 | Deletion never adds rows |
| Contests.WithoutDropsId | server.js:347 | Deletion leaves no row with the id, no more rows than before, and only rows that were there before |
| Contests.DeactivatedHasNoActive | server.js:339 | After deactivation no contest is active |
| Contests.ActiveAfterDeactivation | server.js:339-340 | An active row added after deactivation is the only active contest and the one the lookups find |
| Contests.WithoutKeepsOthers | server.js:347 | Deletion keeps every row with another id |
| Contests.WithoutKeepsKeys | server.js:347 | Deletion keeps the autoincrement keys ordered and below the counter |
| Contests.WithoutAbsentChangesNothing | server.js:347 | Deleting an id that no row has leaves the table as it was |
| Contests.WithoutAppend | server.js:347 | Deletion works row by row: it distributes over concatenation |
| Contests.WithoutRemovesOne | server.js:347 | With distinct autoincrement keys, deleting the id of row k removes exactly row k and keeps every other row in order |
| Contests.ContestStore.constructor | server.js:34-55 | A new database has empty tables and counters at 1 |
| Contests.ContestStore.SeedDefaultContest | server.js:57 | The seed adds one active 'Default Contest' only when the table is empty, and is then the active contest; otherwise nothing changes |
| Contests.ContestStore.CreateContest | server.js:336-344 | Every earlier contest is kept with its id and name but inactive. The new one is appended, is named as given or 'New Contest', and is the only active contest and the one the handlers find. Predictions are untouched |
| Contests.ContestStore.DeletePrediction | server.js:346-350 | The table afterwards holds exactly the rows with another id; the contests are untouched |
| Contests.ContestStore.SubmitPrediction | server.js:228-286 | A failed check is reported as such. With no active contest: 'No active contest'. An unparsable value fails at the insert. Otherwise exactly one row is appended, with the next key, the active contest and the parsed value. A stored value was in the band at the time |
| Contests.ContestStore.InsertRows | server.js:387-393 | The prepared insert appends the rows in order with consecutive fresh keys |
| Contests.ContestStore.BulkUpload | server.js:352-398 | Without an active contest nothing is inserted. Otherwise exactly the filtered rows are appended, in order, with fresh keys, each tagged with the active contest and a non-blank name |
| Ranking.SortByDistance | server.js:207 | The ordering is a permutation of the rows, sorted by distance to the reference |
| Ranking.Rank | server.js:207 | The ranking has min(3, n) rows drawn from the input without repetition, sorted by distance |
| Ranking.RankIsClosest | server.js:207 | Every row left out of the ranking is at least as far from the reference as every row in it |
| Ranking.ForContest | server.js:197 | The candidates all belong to the contest and are drawn from the table |
| Ranking.ForContestKeepsRows | server.js:197 | Every prediction of the contest is a candidate |
| Ranking.LatestSample | server.js:197 | The latest sample exists iff the price table is not empty, and is the sample appended last |
| Ranking.Reference | server.js:196-207 | The reference is the in-memory price when truthy, else the latest stored sample |
| Ranking.Shown | server.js:196-215 | At most three of the candidates are shown, without repetition, ranked when a reference exists |
| Ranking.TopPredictions | server.js:185-218 | The leaderboard has at most 3 predictions and is empty without an active contest. Every entry is a stored prediction of the active contest, shown at most once. With a reference, it is the distance ranking of that contest's predictions |
| Ranking.TopPredictionsAreClosest | server.js:196-215 | Any prediction of the active contest that is not shown is at least as far from the reference as every shown one |
| Ranking.ReferenceIsLatestSample | server.js:196-207 | While the in-memory price equals the latest sample, both query branches rank against the latest sample |

## Left out

- Contests.ContestStore.DeletePrediction: the route's text id (server.js:347) is taken as the integer key it compares equal to under SQLite's integer affinity. A non-numeric id matches no row and deletes nothing.
- HTTP plumbing is not modelled: Express routing, sessions, body parsing, EJS rendering, the admin PIN login and `requireAdmin`. The admin page's listings are not modelled either.
- The broker calls over HTTP are not modelled. Their outcomes are the `Reply` arguments.
- The SHA-256 checksum is not modelled. The request records the checksum's input string (`apiKey + requestToken + apiSecret`), not the digest.
- The `.env` read-modify-write after a token change is asynchronous file I/O and is not modelled.
- The upload is not modelled: multer, the CSV tokeniser and the temporary-file removal. The file comes in as rows of cells, and the model assumes every row reaches the `data` handler. In the program, the `parse` import of server.js:9 rejects by default a record whose cell count differs from the first record's. The parser chain at server.js:364-396 has no `error` listener, so such a file aborts the whole upload: nothing is inserted and `end` is never reached. The model does not capture this, so `BadRowIsSkipped` speaks only of rows the parser delivers. An upload with no file only redirects and is not modelled.
- `parseFloat` is a parameter, not a model of JavaScript's number grammar. Infinities are not representable, because prices are `real`.
- Floating-point rounding is not modelled. Prices and the 0.3 factor are exact reals.
- SQLite specifics are not modelled. The asynchronous interleaving of the timer, the handlers and the two statements of a new contest is not modelled either: each handler is one atomic step. In particular, the fetches started but not awaited by the token routes run to completion inside the route.
- The `created_at`, `submitted_at` and `fetched_at` timestamps are not modelled. Insertion order stands in for them, so the latest sample is the one appended last.
- Ranking.Rank: ties in distance are broken by storage order (a stable sort), while SQL leaves their order unspecified.
- Ranking.Shown: when no reference exists, the query orders by NULL and the order is the database's. The model shows the first three rows in storage order and constrains nothing more about them.
- Market.Fetch: a quote body whose entry lacks `ohlc` throws after `currentNiftyPrice` has been assigned. The model's quote always carries both prices.
- Market.PriceFeed.RefreshToken: when the exchange returns nothing (`NoResult`), the route itself throws on `result.success`. The model only leaves the state unchanged and makes no fetch.
- Request bodies with non-string values (JSON objects or numbers) are not modelled. Form fields are optional strings.

=== FILE: band.dfy ===
/** The acceptance band of `POST /predict` (server.js:228-259): a prediction must lie
    within 30% of the last session's close, bounds included. */
module Band {
  import opened Wrappers
  import opened Js

  /** The largest allowed move, as a fraction of the close. */
  const MaxChangeRatio: real := 0.3

  /** `lastClosePrice - lastClosePrice * 0.3` */
  function MinValue(close: real): real {
    close - close * MaxChangeRatio
  }

  /** `lastClosePrice + lastClosePrice * 0.3` */
  function MaxValue(close: real): real {
    close + close * MaxChangeRatio
  }

  /** The closed band both the form and the bulk import accept. */
  predicate InBand(value: real, close: real) {
    MinValue(close) <= value <= MaxValue(close)
  }

  /** What the form handler decides before it looks for the active contest. A value
      that `parseFloat` cannot read (None, i.e. NaN) fails neither comparison and
      so passes: the handler has no NaN check. */
  datatype PredictCheck =
    | MissingFields                       // 'Name and prediction value are required'
    | RangeUnknown                        // 'Unable to verify prediction range. ...'
    | OutOfRange(min: real, max: real)    // 'Prediction must be within 30% ...'
    | Passed(value: Option<real>)

  /** The checks of `POST /predict`, in the handler's order: both fields present,
      close known, value inside the band. */
  function CheckPrediction(name: Option<string>, rawValue: Option<string>, close: Option<real>,
                           parseFloat: string -> Option<real>): (r: PredictCheck)
    ensures r == MissingFields <==> !Present(name) || !Present(rawValue)
    ensures r == RangeUnknown <==> Present(name) && Present(rawValue) && !Known(close)
    ensures r.OutOfRange? <==>
      Present(name) && Present(rawValue) && Known(close)
      && parseFloat(rawValue.value).Some? && !InBand(parseFloat(rawValue.value).value, close.value)
    ensures r.Passed? <==>
      Present(name) && Present(rawValue) && Known(close)
      && (parseFloat(rawValue.value).Some? ==> InBand(parseFloat(rawValue.value).value, close.value))
    ensures r.Passed? ==> r.value == parseFloat(rawValue.value)
    ensures r.OutOfRange? ==>
      Known(close) && parseFloat(rawValue.value).Some?
      && (parseFloat(rawValue.value).value < MinValue(close.value)
          || parseFloat(rawValue.value).value > MaxValue(close.value))
      && r.min == MinValue(close.value) && r.max == MaxValue(close.value)
  {
    if !Present(name) || !Present(rawValue) then MissingFields
    else
      var predicted := parseFloat(rawValue.value);
      if !Known(close) then RangeUnknown
      else
        var minValue := MinValue(close.value);
        var maxValue := MaxValue(close.value);
        if predicted.Some? && (predicted.value < minValue || predicted.value > maxValue) then
          OutOfRange(minValue, maxValue)
        else
          Passed(predicted)
  }

  /** For a positive close the band is [0.7 * close, 1.3 * close]; for a negative close
      MinValue exceeds MaxValue and no value is in the band. */
  lemma BandIsSeventyToHundredThirtyPercent(value: real, close: real)
    ensures close > 0.0 ==> (InBand(value, close) <==> close * 0.7 <= value <= close * 1.3)
    ensures close < 0.0 ==> !InBand(value, close)
  {
  }
}

=== FILE: bulk_import.dfy ===
/** The row filter of `POST /admin/bulk-upload` (server.js:363-384). The CSV is given
    already split into rows of cells, and `parseFloat` is a parameter: None stands for
    NaN. A row is kept when it has a name and a number, and, if a close is known, when
    the number is in the band; a delivered row that fails these tests is skipped and the
    rest of the batch goes on. */
module BulkImport {
  import opened Wrappers
  import opened Js
  import opened Band

  /** `[contest.id, name, value]`, one row of the batch insert. */
  datatype ImportRow = ImportRow(contestId: nat, name: string, value: real)

  /** The name and value a row contributes, if it is kept. */
  function KeepRow(row: seq<string>, close: Option<real>, parseFloat: string -> Option<real>): (r: Option<(string, real)>)
    ensures r.Some? <==>
      |row| >= 2 && Trim(row[0]) != "" && parseFloat(row[1]).Some?
      && (Known(close) ==> InBand(parseFloat(row[1]).value, close.value))
    ensures r.Some? ==> r.value == (Trim(row[0]), parseFloat(row[1]).value)
  {
    if |row| < 2 then None
    else
      var name := Trim(row[0]);
      var value := parseFloat(row[1]);
      if name == "" || value.None? then None
      else if Known(close) && !InBand(value.value, close.value) then None
      else Some((name, value.value))
  }

  /** What one row adds to the batch: nothing, or itself tagged with the contest. */
  function Tagged(contestId: nat, kept: Option<(string, real)>): seq<ImportRow> {
    if kept.Some? then [ImportRow(contestId, kept.value.0, kept.value.1)] else []
  }

  /** The batch the filter builds from `rows`, in row order. */
  function Accepted(rows: seq<seq<string>>, contestId: nat, close: Option<real>,
                    parseFloat: string -> Option<real>): (r: seq<ImportRow>)
    ensures |r| <= |rows|
    decreases |rows|
  {
    if rows == [] then []
    else Accepted(rows[..|rows| - 1], contestId, close, parseFloat)
         + Tagged(contestId, KeepRow(rows[|rows| - 1], close, parseFloat))
  }

  /** The batch of a longer prefix adds what the next row contributes. */
  lemma AcceptedStep(rows: seq<seq<string>>, i: nat, contestId: nat, close: Option<real>,
                     parseFloat: string -> Option<real>)
    requires i < |rows|
    ensures Accepted(rows[..i + 1], contestId, close, parseFloat)
         == Accepted(rows[..i], contestId, close, parseFloat) + Tagged(contestId, KeepRow(rows[i], close, parseFloat))
  {
    assert rows[..i + 1][..i] == rows[..i];
  }

  /** The `data` handler: pushes the row onto `results` when it passes the checks. */
  method OnData(results: seq<ImportRow>, data: seq<string>, contestId: nat, close: Option<real>,
                parseFloat: string -> Option<real>) returns (pushed: seq<ImportRow>)
    ensures pushed == results + Tagged(contestId, KeepRow(data, close, parseFloat))
  {
    pushed := results;
    if |data| >= 2 {
      var name := Trim(data[0]);
      var value := parseFloat(data[1]);
      if name != "" && value.Some? {
        if Known(close) {
          if MinValue(close.value) <= value.value && value.value <= MaxValue(close.value) {
            pushed := results + [ImportRow(contestId, name, value.value)];
          }
        } else {
          pushed := results + [ImportRow(contestId, name, value.value)];
        }
      }
    }
  }

  /** The `data` handler run over every row of the file, in order. */
  method FilterRows(rows: seq<seq<string>>, contestId: nat, close: Option<real>,
                    parseFloat: string -> Option<real>) returns (results: seq<ImportRow>)
    ensures results == Accepted(rows, contestId, close, parseFloat)
  {
    results := [];
    for i := 0 to |rows|
      invariant results == Accepted(rows[..i], contestId, close, parseFloat)
    {
      results := OnData(results, rows[i], contestId, close, parseFloat);
      AcceptedStep(rows, i, contestId, close, parseFloat);
    }
    assert rows[..|rows|] == rows;
  }

  /** The filter works row by row: splitting the file anywhere splits the batch there,
      so the kept rows keep their order. */
  lemma {:induction false} AcceptedAppend(a: seq<seq<string>>, b: seq<seq<string>>, contestId: nat,
                                          close: Option<real>, parseFloat: string -> Option<real>)
    ensures Accepted(a + b, contestId, close, parseFloat)
         == Accepted(a, contestId, close, parseFloat) + Accepted(b, contestId, close, parseFloat)
    decreases |b|
  {
    if b == [] {
      assert a + b == a;
    } else {
      var b' := b[..|b| - 1];
      assert (a + b)[..|a + b| - 1] == a + b';
      assert (a + b)[|a + b| - 1] == b[|b| - 1];
      AcceptedAppend(a, b', contestId, close, parseFloat);
    }
  }

  /** A one-row file contributes what its row does. */
  lemma AcceptedSingle(row: seq<string>, contestId: nat, close: Option<real>, parseFloat: string -> Option<real>)
    ensures Accepted([row], contestId, close, parseFloat) == Tagged(contestId, KeepRow(row, close, parseFloat))
  {
    assert [row][..0] == [];
  }

  /** A row that fails the filter never aborts the batch: the rows around it are
      imported as if it were not there. */
  lemma BadRowIsSkipped(before: seq<seq<string>>, row: seq<string>, after: seq<seq<string>>, contestId: nat,
                        close: Option<real>, parseFloat: string -> Option<real>)
    requires KeepRow(row, close, parseFloat).None?
    ensures Accepted(before + [row] + after, contestId, close, parseFloat)
         == Accepted(before + after, contestId, close, parseFloat)
  {
    var front := before + [row];
    AcceptedAppend(front, after, contestId, close, parseFloat);
    AcceptedAppend(before, [row], contestId, close, parseFloat);
    AcceptedAppend(before, after, contestId, close, parseFloat);
    AcceptedSingle(row, contestId, close, parseFloat);
  }

  /** Every imported row is tagged with the contest, has a non-blank name, and lies in
      the band when a close is known. */
  lemma {:induction false} AcceptedSound(rows: seq<seq<string>>, contestId: nat, close: Option<real>,
                                         parseFloat: string -> Option<real>)
    ensures |Accepted(rows, contestId, close, parseFloat)| <= |rows|
    ensures forall t :: t in Accepted(rows, contestId, close, parseFloat) ==>
      t.contestId == contestId && t.name != "" && (Known(close) ==> InBand(t.value, close.value))
    decreases |rows|
  {
    if rows != [] {
      AcceptedSound(rows[..|rows| - 1], contestId, close, parseFloat);
    }
  }

  /** Every row that passes the checks is imported. */
  lemma AcceptedComplete(rows: seq<seq<string>>, i: nat, contestId: nat, close: Option<real>,
                         parseFloat: string -> Option<real>)
    requires i < |rows| && KeepRow(rows[i], close, parseFloat).Some?
    ensures var kept := KeepRow(rows[i], close, parseFloat).value;
      ImportRow(contestId, kept.0, kept.1) in Accepted(rows, contestId, close, parseFloat)
  {
    assert rows == rows[..i] + [rows[i]] + rows[i + 1..];
    AcceptedAppend(rows[..i] + [rows[i]], rows[i + 1..], contestId, close, parseFloat);
    AcceptedAppend(rows[..i], [rows[i]], contestId, close, parseFloat);
    AcceptedSingle(rows[i], contestId, close, parseFloat);
  }
}

=== FILE: contests.dfy ===
/** The `contests` and `predictions` tables (server.js:34-57) and the handlers that
    change them: the default seed, a new contest, deleting a prediction, a form
    submission and a bulk import. Each handler is one atomic step over the tables. */
module Contests {
  import opened Wrappers
  import opened Js
  import opened Band
  import BulkImport

  const DefaultContestName := "Default Contest"
  const NewContestName := "New Contest"

  /** A row of `contests`; `created_at` is not modelled. */
  datatype Contest = Contest(id: nat, name: string, isActive: bool)

  /** A row of `predictions`; `submitted_at` is not modelled. */
  datatype Prediction = Prediction(id: nat, contestId: nat, name: string, value: real)

  /** What the prediction form reports. */
  datatype SubmitOutcome =
    | Rejected(check: PredictCheck)   // a field is missing, the close is unknown, or the value is out of band
    | NoActiveContest                 // 'No active contest'
    | InsertFailed                    // 'Error submitting prediction'
    | Submitted(prediction: Prediction)

  /** `db.get('SELECT * FROM contests WHERE is_active = 1')`: the first active row. */
  function ActiveContest(cs: seq<Contest>): (r: Option<Contest>)
    ensures r.Some? ==> r.value in cs && r.value.isActive
    ensures r.None? <==> forall i :: 0 <= i < |cs| ==> !cs[i].isActive
  {
    if cs == [] then None
    else if cs[0].isActive then Some(cs[0])
    else ActiveContest(cs[1..])
  }

  /** The number of active rows. */
  function CountActive(cs: seq<Contest>): nat {
    if cs == [] then 0 else (if cs[0].isActive then 1 else 0) + CountActive(cs[1..])
  }

  /** `UPDATE contests SET is_active = 0`: every row kept, in place, and inactive. */
  function Deactivated(cs: seq<Contest>): (r: seq<Contest>)
    ensures |r| == |cs|
    ensures forall i :: 0 <= i < |cs| ==> r[i] == cs[i].(isActive := false)
  {
    if cs == [] then [] else [cs[0].(isActive := false)] + Deactivated(cs[1..])
  }

  /** `contestName || 'New Contest'` */
  function ContestName(contestName: Option<string>): (name: string)
    ensures Present(contestName) ==> name == contestName.value
    ensures !Present(contestName) ==> name == NewContestName
  {
    if Present(contestName) then contestName.value else NewContestName
  }

  /** `DELETE FROM predictions WHERE id = ?`: the rows with another id, in order. */
  function Without(ps: seq<Prediction>, id: int): (r: seq<Prediction>)
    ensures |r| <= |ps|
  {
    if ps == [] then []
    else if ps[0].id == id then Without(ps[1..], id)
    else [ps[0]] + Without(ps[1..], id)
  }

  /** `INSERT` of a batch of rows, numbered from `start` by the autoincrement key. */
  function Numbered(rows: seq<BulkImport.ImportRow>, start: nat): (r: seq<Prediction>)
    ensures |r| == |rows|
  {
    seq(|rows|, i requires 0 <= i < |rows| => Prediction(start + i, rows[i].contestId, rows[i].name, rows[i].value))
  }

  /** AUTOINCREMENT keys: rows in insertion order have growing ids below `next`. */
  ghost predicate ContestKeys(cs: seq<Contest>, next: nat) {
    (forall i :: 0 <= i < |cs| ==> cs[i].id < next)
    && (forall i, j :: 0 <= i < j < |cs| ==> cs[i].id < cs[j].id)
  }

  ghost predicate PredictionKeys(ps: seq<Prediction>, next: nat) {
    (forall i :: 0 <= i < |ps| ==> ps[i].id < next)
    && (forall i, j :: 0 <= i < j < |ps| ==> ps[i].id < ps[j].id)
  }

  /** Counting active rows distributes over concatenation. */
  lemma {:induction false} CountActiveAppend(a: seq<Contest>, b: seq<Contest>)
    ensures CountActive(a + b) == CountActive(a) + CountActive(b)
    decreases |a|
  {
    if a == [] {
      assert a + b == b;
    } else {
      assert (a + b)[0] == a[0];
      assert (a + b)[1..] == a[1..] + b;
      CountActiveAppend(a[1..], b);
    }
  }

  /** After `UPDATE contests SET is_active = 0` no row is active. */
  lemma {:induction false} DeactivatedHasNoActive(cs: seq<Contest>)
    ensures CountActive(Deactivated(cs)) == 0
    decreases |cs|
  {
    if cs != [] {
      assert Deactivated(cs)[1..] == Deactivated(cs[1..]);
      DeactivatedHasNoActive(cs[1..]);
    }
  }

  /** A lone active row behind inactive ones is the one the handlers find, and the only
      active row. */
  lemma {:induction false} ActiveAfterDeactivation(cs: seq<Contest>, c: Contest)
    requires c.isActive
    ensures ActiveContest(Deactivated(cs) + [c]) == Some(c)
    ensures CountActive(Deactivated(cs) + [c]) == 1
    decreases |cs|
  {
    DeactivatedHasNoActive(cs);
    CountActiveAppend(Deactivated(cs), [c]);
    assert CountActive([c]) == 1 by {
      assert [c][1..] == [];
    }
    if cs != [] {
      assert (Deactivated(cs) + [c])[1..] == Deactivated(cs[1..]) + [c];
      ActiveAfterDeactivation(cs[1..], c);
    } else {
      assert Deactivated(cs) + [c] == [c];
    }
  }

  /** Deletion leaves no row with the id, and only rows that were there before. */
  lemma {:induction false} WithoutDropsId(ps: seq<Prediction>, id: int)
    ensures |Without(ps, id)| <= |ps|
    ensures forall i :: 0 <= i < |Without(ps, id)| ==> Without(ps, id)[i].id != id
    ensures multiset(Without(ps, id)) <= multiset(ps)
    decreases |ps|
  {
    if ps != [] {
      WithoutDropsId(ps[1..], id);
      assert ps == [ps[0]] + ps[1..];
    }
  }

  /** Deleting keeps every row with another id. */
  lemma {:induction false} WithoutKeepsOthers(ps: seq<Prediction>, id: int, p: Prediction)
    requires p in ps && p.id != id
    ensures p in Without(ps, id)
    decreases |ps|
  {
    if ps[0] != p {
      WithoutKeepsOthers(ps[1..], id, p);
    }
  }

  /** A row whose key is below every key behind it can go in front. */
  lemma PredictionKeysPrepend(p: Prediction, ps: seq<Prediction>, next: nat)
    requires PredictionKeys(ps, next) && p.id < next
    requires forall j :: 0 <= j < |ps| ==> p.id < ps[j].id
    ensures PredictionKeys([p] + ps, next)
  {
    var r := [p] + ps;
    forall j | 0 < j < |r| ensures r[j] == ps[j - 1] { }
  }

  /** Dropping the first row keeps the keys ordered. */
  lemma PredictionKeysTail(ps: seq<Prediction>, next: nat)
    requires PredictionKeys(ps, next) && ps != []
    ensures PredictionKeys(ps[1..], next)
    ensures forall j :: 0 <= j < |ps[1..]| ==> ps[0].id < ps[1..][j].id
  {
    assert forall i :: 0 <= i < |ps[1..]| ==> ps[1..][i] == ps[i + 1];
  }

  /** Deleting keeps the surviving rows in order, so their keys stay ordered. */
  lemma {:induction false} WithoutKeepsKeys(ps: seq<Prediction>, id: int, next: nat)
    requires PredictionKeys(ps, next)
    ensures PredictionKeys(Without(ps, id), next)
    decreases |ps|
  {
    if ps != [] {
      var tail := ps[1..];
      PredictionKeysTail(ps, next);
      WithoutKeepsKeys(tail, id, next);
      var rest := Without(tail, id);
      WithoutDropsId(tail, id);
      if ps[0].id != id {
        forall j | 0 <= j < |rest| ensures ps[0].id < rest[j].id {
          assert rest[j] in multiset(rest);
          var k :| 0 <= k < |tail| && tail[k] == rest[j];
        }
        PredictionKeysPrepend(ps[0], rest, next);
      }
    }
  }

  /** A row inserted with the next key keeps the keys ordered and below the counter. */
  lemma PredictionKeysAppend(ps: seq<Prediction>, p: Prediction, next: nat)
    requires PredictionKeys(ps, next) && p.id == next
    ensures PredictionKeys(ps + [p], next + 1)
  {
    var r := ps + [p];
    forall i | 0 <= i < |ps| ensures r[i] == ps[i] { }
  }

  /** Deleting an id no row has changes nothing. */
  lemma {:induction false} WithoutAbsentChangesNothing(ps: seq<Prediction>, id: int)
    requires forall i :: 0 <= i < |ps| ==> ps[i].id != id
    ensures Without(ps, id) == ps
    decreases |ps|
  {
    if ps != [] {
      assert ps[0].id != id;
      forall i | 0 <= i < |ps[1..]| ensures ps[1..][i].id != id {
        assert ps[1..][i] == ps[i + 1];
      }
      WithoutAbsentChangesNothing(ps[1..], id);
      assert ps == [ps[0]] + ps[1..];
    }
  }

  /** Deletion works row by row: it distributes over concatenation. */
  lemma {:induction false} WithoutAppend(a: seq<Prediction>, b: seq<Prediction>, id: int)
    ensures Without(a + b, id) == Without(a, id) + Without(b, id)
    decreases |a|
  {
    if a == [] {
      assert a + b == b;
    } else {
      assert (a + b)[0] == a[0];
      assert (a + b)[1..] == a[1..] + b;
      WithoutAppend(a[1..], b, id);
    }
  }

  /** Deleting the id of `p`, when deletion leaves the rows around it alone, removes
      exactly `p`. */
  lemma WithoutRemovesRow(before: seq<Prediction>, p: Prediction, after: seq<Prediction>, id: int)
    requires p.id == id
    requires Without(before, id) == before && Without(after, id) == after
    ensures Without(before + [p] + after, id) == before + after
  {
    var front := before + [p];
    WithoutAppend(front, after, id);
    WithoutAppend(before, [p], id);
    assert Without([p], id) == [] by {
      assert [p][1..] == [];
    }
  }

  /** With distinct keys, deleting the id of row `k` removes exactly that row. */
  lemma WithoutRemovesOne(ps: seq<Prediction>, id: int, next: nat, k: nat)
    requires PredictionKeys(ps, next)
    requires k < |ps| && ps[k].id == id
    ensures Without(ps, id) == ps[..k] + ps[k + 1..]
  {
    var before, after := ps[..k], ps[k + 1..];
    forall i | 0 <= i < |before| ensures before[i].id != id {
      assert before[i] == ps[i] && ps[i].id < ps[k].id;
    }
    forall i | 0 <= i < |after| ensures after[i].id != id {
      assert after[i] == ps[k + 1 + i] && ps[k].id < ps[k + 1 + i].id;
    }
    WithoutAbsentChangesNothing(before, id);
    WithoutAbsentChangesNothing(after, id);
    assert ps == before + [ps[k]] + after;
    WithoutRemovesRow(before, ps[k], after, id);
  }

  /** The two tables, updated in place, with their autoincrement counters. */
  class ContestStore {
    var contests: seq<Contest>
    var predictions: seq<Prediction>
    var nextContestId: nat
    var nextPredictionId: nat

    /** Keys are ordered and fresh, and at most one contest is active. */
    ghost predicate Valid()
      reads this
    {
      ContestKeys(contests, nextContestId) && PredictionKeys(predictions, nextPredictionId)
      && CountActive(contests) <= 1
    }

    /** A new database file: both tables empty, keys starting at 1. */
    constructor ()
      ensures Valid()
      ensures contests == [] && predictions == [] && nextContestId == 1 && nextPredictionId == 1
    {
      contests := [];
      predictions := [];
      nextContestId := 1;
      nextPredictionId := 1;
    }

    /** The startup seed (server.js:57): a 'Default Contest', active by the column's
        default, only when the table is empty. */
    method SeedDefaultContest()
      requires Valid()
      modifies this
      ensures Valid()
      ensures predictions == old(predictions) && nextPredictionId == old(nextPredictionId)
      ensures old(contests) == [] ==>
        contests == [Contest(old(nextContestId), DefaultContestName, true)]
        && nextContestId == old(nextContestId) + 1
        && ActiveContest(contests) == Some(contests[0])
      ensures old(contests) != [] ==> contests == old(contests) && nextContestId == old(nextContestId)
    {
      if contests == [] {
        contests := [Contest(nextContestId, DefaultContestName, true)];
        assert CountActive(contests) == 1 by {
          assert contests[1..] == [];
        }
        nextContestId := nextContestId + 1;
      }
    }

    /** `POST /admin/new-contest`: deactivate every contest, then insert one active row. */
    method CreateContest(contestName: Option<string>) returns (created: Contest)
      requires Valid()
      modifies this
      ensures Valid()
      ensures created == Contest(old(nextContestId), ContestName(contestName), true)
      ensures contests == Deactivated(old(contests)) + [created]
      ensures nextContestId == old(nextContestId) + 1
      // every earlier contest is still there, unchanged but for being inactive
      ensures |contests| == |old(contests)| + 1
      ensures forall i :: 0 <= i < |old(contests)| ==>
        contests[i].id == old(contests)[i].id && contests[i].name == old(contests)[i].name && !contests[i].isActive
      // the new one is the only active contest, and the one the handlers find
      ensures CountActive(contests) == 1 && ActiveContest(contests) == Some(created)
      ensures predictions == old(predictions) && nextPredictionId == old(nextPredictionId)
    {
      var deactivated := Deactivated(contests);
      created := Contest(nextContestId, ContestName(contestName), true);
      ActiveAfterDeactivation(contests, created);
      contests := deactivated + [created];
      nextContestId := nextContestId + 1;
    }

    /** `POST /admin/delete-prediction/:id`: remove the row with that key, if any. */
    method DeletePrediction(id: int)
      requires Valid()
      modifies this
      ensures Valid()
      ensures predictions == Without(old(predictions), id)
      ensures forall i :: 0 <= i < |predictions| ==> predictions[i].id != id
      ensures forall p :: p in old(predictions) && p.id != id ==> p in predictions
      ensures contests == old(contests) && nextContestId == old(nextContestId)
      ensures nextPredictionId == old(nextPredictionId)
    {
      WithoutKeepsKeys(predictions, id, nextPredictionId);
      WithoutDropsId(predictions, id);
      forall p | p in predictions && p.id != id ensures p in Without(predictions, id) {
        WithoutKeepsOthers(predictions, id, p);
      }
      predictions := Without(predictions, id);
    }

    /** `POST /predict` (server.js:228-286). A value `parseFloat` reads as NaN passes the
        band check and reaches the insert, where SQLite stores NaN as NULL and the
        `NOT NULL` constraint rejects the row. */
    method SubmitPrediction(name: Option<string>, rawValue: Option<string>, close: Option<real>,
                            parseFloat: string -> Option<real>) returns (outcome: SubmitOutcome)
      requires Valid()
      modifies this
      ensures Valid()
      ensures contests == old(contests) && nextContestId == old(nextContestId)
      ensures var check := CheckPrediction(name, rawValue, close, parseFloat);
        if !check.Passed? then
          outcome == Rejected(check) && predictions == old(predictions) && nextPredictionId == old(nextPredictionId)
        else if ActiveContest(contests).None? then
          outcome == NoActiveContest && predictions == old(predictions) && nextPredictionId == old(nextPredictionId)
        else if check.value.None? then
          outcome == InsertFailed && predictions == old(predictions) && nextPredictionId == old(nextPredictionId)
        else
          outcome == Submitted(Prediction(old(nextPredictionId), ActiveContest(contests).value.id, name.value, check.value.value))
          && predictions == old(predictions) + [outcome.prediction]
          && nextPredictionId == old(nextPredictionId) + 1
      // a stored prediction was inside the band at the time it was stored
      ensures outcome.Submitted? ==> Known(close) && InBand(outcome.prediction.value, close.value)
    {
      var check := CheckPrediction(name, rawValue, close, parseFloat);
      if !check.Passed? {
        return Rejected(check);
      }
      var contest := ActiveContest(contests);
      if contest.None? {
        return NoActiveContest;
      }
      if check.value.None? {
        return InsertFailed;
      }
      var p := Prediction(nextPredictionId, contest.value.id, name.value, check.value.value);
      PredictionKeysAppend(predictions, p, nextPredictionId);
      predictions := predictions + [p];
      nextPredictionId := nextPredictionId + 1;
      outcome := Submitted(p);
    }

    /** The prepared `INSERT` run once per row (server.js:387-393), in order. */
    method InsertRows(rows: seq<BulkImport.ImportRow>) returns (inserted: seq<Prediction>)
      requires Valid()
      modifies this
      ensures Valid()
      ensures inserted == Numbered(rows, old(nextPredictionId))
      ensures predictions == old(predictions) + inserted
      ensures nextPredictionId == old(nextPredictionId) + |rows|
      ensures contests == old(contests) && nextContestId == old(nextContestId)
    {
      ghost var start := nextPredictionId;
      inserted := [];
      for j := 0 to |rows|
        invariant |inserted| == j
        invariant forall k :: 0 <= k < j ==>
          inserted[k] == Prediction(start + k, rows[k].contestId, rows[k].name, rows[k].value)
        invariant predictions == old(predictions) + inserted
        invariant nextPredictionId == start + j
        invariant PredictionKeys(predictions, nextPredictionId)
        invariant contests == old(contests) && nextContestId == old(nextContestId)
      {
        var p := Prediction(nextPredictionId, rows[j].contestId, rows[j].name, rows[j].value);
        PredictionKeysAppend(predictions, p, nextPredictionId);
        predictions := predictions + [p];
        inserted := inserted + [p];
        nextPredictionId := nextPredictionId + 1;
      }
    }

    /** `POST /admin/bulk-upload` (server.js:352-398): with an active contest, filter the
        rows and insert every kept row, in order; without one, insert nothing. */
    method BulkUpload(rows: seq<seq<string>>, close: Option<real>, parseFloat: string -> Option<real>)
      returns (inserted: seq<Prediction>)
      requires Valid()
      modifies this
      ensures Valid()
      ensures contests == old(contests) && nextContestId == old(nextContestId)
      ensures ActiveContest(contests).None? ==> inserted == []
      ensures ActiveContest(contests).Some? ==>
        inserted == Numbered(BulkImport.Accepted(rows, ActiveContest(contests).value.id, close, parseFloat),
                             old(nextPredictionId))
      ensures predictions == old(predictions) + inserted
      ensures nextPredictionId == old(nextPredictionId) + |inserted|
      ensures forall i :: 0 <= i < |inserted| ==>
        inserted[i].contestId == ActiveContest(contests).value.id && inserted[i].name != ""
    {
      var contest := ActiveContest(contests);
      if contest.None? {
        return [];
      }
      var results := BulkImport.FilterRows(rows, contest.value.id, close, parseFloat);
      BulkImport.AcceptedSound(rows, contest.value.id, close, parseFloat);
      inserted := InsertRows(results);
      forall i | 0 <= i < |inserted| ensures inserted[i].contestId == contest.value.id && inserted[i].name != "" {
        assert results[i] in results;
      }
    }
  }
}

=== FILE: js.dfy ===
/** The parts of JavaScript's value semantics that the server's guards depend on:
    truthiness of optional strings and numbers, and `String.prototype.trim`. */
module Js {
  import opened Wrappers

  /** `if (s)` on a string that may be missing: `undefined`, `null` and `""` are falsy. */
  predicate Present(s: Option<string>) {
    s.Some? && s.value != ""
  }

  /** `if (x)` on a price that may be missing: `null` and `0` are falsy. */
  predicate Known(x: Option<real>) {
    x.Some? && x.value != 0.0
  }

  /** The characters `trim` strips: ECMAScript WhiteSpace and LineTerminator. */
  predicate IsWhiteSpace(c: char) {
    || c == ' ' || c == '\t' || c == '\n' || c == '\r'
    || c == '\U{B}' || c == '\U{C}' || c == '\U{A0}' || c == '\U{1680}'
    || ('\U{2000}' <= c <= '\U{200A}')
    || c == '\U{2028}' || c == '\U{2029}' || c == '\U{202F}' || c == '\U{205F}'
    || c == '\U{3000}' || c == '\U{FEFF}'
  }

  /** Drops the leading white space: the result is a suffix of `s`. */
  function TrimStart(s: string): (r: string)
    ensures |r| <= |s| && r == s[|s| - |r|..]
    ensures r == [] || !IsWhiteSpace(r[0])
    ensures forall k :: 0 <= k < |s| - |r| ==> IsWhiteSpace(s[k])
  {
    if s != [] && IsWhiteSpace(s[0]) then TrimStart(s[1..]) else s
  }

  /** Drops the trailing white space: the result is a prefix of `s`. */
  function TrimEnd(s: string): (r: string)
    ensures |r| <= |s| && r == s[..|r|]
    ensures r == [] || !IsWhiteSpace(r[|r| - 1])
    ensures forall k :: |r| <= k < |s| ==> IsWhiteSpace(s[k])
  {
    if s != [] && IsWhiteSpace(s[|s| - 1]) then TrimEnd(s[..|s| - 1]) else s
  }

  /** `s.trim()`: the slice of `s` left once the white space at both ends is removed;
      it neither starts nor ends with white space, and is empty exactly when `s` is
      blank. */
  function Trim(s: string): (r: string)
    ensures |r| <= |s|
    ensures exists i, j ::
              && 0 <= i <= j <= |s| && r == s[i..j]
              && (forall k :: 0 <= k < i ==> IsWhiteSpace(s[k]))
              && (forall k :: j <= k < |s| ==> IsWhiteSpace(s[k]))
    ensures r == [] || (!IsWhiteSpace(r[0]) && !IsWhiteSpace(r[|r| - 1]))
    ensures r == [] <==> forall k :: 0 <= k < |s| ==> IsWhiteSpace(s[k])
  {
    var t := TrimStart(s);
    var r := TrimEnd(t);
    TrimmedSlice(s, t, r);
    r
  }

  /** White space dropped from the front (leaving the suffix `t`) and then from the
      back (leaving the prefix `r` of `t`) leaves a slice of `s` with white space on
      both removed ends. */
  lemma TrimmedSlice(s: string, t: string, r: string)
    requires |t| <= |s| && t == s[|s| - |t|..]
    requires forall k :: 0 <= k < |s| - |t| ==> IsWhiteSpace(s[k])
    requires |r| <= |t| && r == t[..|r|]
    requires forall k :: |r| <= k < |t| ==> IsWhiteSpace(t[k])
    requires t == [] || !IsWhiteSpace(t[0])
    requires r == [] || !IsWhiteSpace(r[|r| - 1])
    ensures |r| <= |s|
    ensures exists i, j ::
              && 0 <= i <= j <= |s| && r == s[i..j]
              && (forall k :: 0 <= k < i ==> IsWhiteSpace(s[k]))
              && (forall k :: j <= k < |s| ==> IsWhiteSpace(s[k]))
    ensures r == [] || (!IsWhiteSpace(r[0]) && !IsWhiteSpace(r[|r| - 1]))
    ensures r == [] <==> forall k :: 0 <= k < |s| ==> IsWhiteSpace(s[k])
  {
    var i := |s| - |t|;
    var j := i + |r|;
    if r != [] {
      assert r[0] == t[0];
    }
    forall k | i <= k < |s| ensures s[k] == t[k - i] {
    }
    forall k | j <= k < |s| ensures IsWhiteSpace(s[k]) {
      assert IsWhiteSpace(t[k - i]);
    }
    if r != [] {
      assert s[i] == r[0];
    }
    assert r == s[i..j];
  }
}

=== FILE: market.dfy ===
/** The token and price state of the server (server.js:60-175, 400-446): the six
    module-level variables, the `nifty_prices` table the quote fetch appends to,
    and the transitions that change them. Each broker reply is an argument, so
    every transition is a function of the old state and the reply; the class
    `PriceFeed` holds the variables and runs the transitions step by step. */
module Market {
  import opened Wrappers
  import opened Js

  const MissingCredentialsMessage := "Missing API credentials or request token"
  const ExpiredRequestTokenMessage :=
    "Invalid or expired request token. Please get a new one from Kite Connect login."
  /** The placeholder token the startup and manual-start guards refuse (server.js:173, 440). */
  const PlaceholderAccessToken := "your_access_token_here"

  /** `process.env` as the handlers read it. */
  datatype Env = Env(
    apiKey: Option<string>,        // KITE_API_KEY
    apiSecret: Option<string>,     // KITE_API_SECRET
    accessToken: Option<string>,   // KITE_ACCESS_TOKEN
    requestToken: Option<string>)  // KITE_REQUEST_TOKEN

  /** What an awaited broker call produced: a response body, an HTTP error response
      (with the body's `message`, if any, and axios's own `error.message`), or an
      error with no response at all. */
  datatype Reply<T> =
    | Ok(data: T)
    | HttpError(status: int, upstreamMessage: Option<string>, message: string)
    | Transport(message: string)

  /** The `NSE:NIFTY 50` entry of a quote body: `last_price` and `ohlc.close`. */
  datatype Quote = Quote(lastPrice: real, close: real)

  /** The body posted to the session endpoint. The checksum sent is the SHA-256 hex
      digest of `checksumInput`; the digest itself is not part of this model. */
  datatype ExchangeRequest = ExchangeRequest(apiKey: string, requestToken: string, checksumInput: string)

  /** What `generateAccessToken` resolves to: success, a failure with its message, or
      `undefined` when the reply carried no access token. */
  datatype GenerateResult = Generated(accessToken: string) | Failed(error: string) | NoResult

  /** The module-level variables, plus the stored price samples in insertion order. */
  datatype MarketState = MarketState(
    currentPrice: Option<real>,    // currentNiftyPrice
    lastClose: Option<real>,       // lastClosePrice
    accessToken: Option<string>,   // accessToken
    isTokenValid: bool,            // isTokenValid
    requestToken: Option<string>,  // currentRequestToken
    tokenError: Option<string>,    // tokenError
    samples: seq<real>)            // nifty_prices.price

  datatype GenerateStep = GenerateStep(state: MarketState, result: GenerateResult, sent: Option<ExchangeRequest>)

  /** The kinds of outcome of `fetchNiftyPrice`. */
  datatype FetchOutcome = NotConfigured | Fetched(quote: Quote) | Forbidden | Ignored

  /** The state at process start: prices unknown, token not yet trusted, tokens from the
      environment, and whatever samples the database already holds. */
  function Initial(env: Env, storedSamples: seq<real>): MarketState {
    MarketState(None, None, env.accessToken, false, env.requestToken, None, storedSamples)
  }

  /** The in-memory price, when there is one, is the latest stored sample. */
  ghost predicate PriceConsistent(s: MarketState) {
    s.currentPrice.Some? ==> |s.samples| > 0 && s.samples[|s.samples| - 1] == s.currentPrice.value
  }

  /** `requestToken || currentRequestToken || process.env.KITE_REQUEST_TOKEN` */
  function TokenToUse(requestToken: Option<string>, current: Option<string>, envDefault: Option<string>): (r: Option<string>)
    ensures Present(r) <==> Present(requestToken) || Present(current) || Present(envDefault)
    ensures Present(requestToken) ==> r == requestToken
    ensures !Present(requestToken) && Present(current) ==> r == current
    ensures !Present(requestToken) && !Present(current) ==> r == envDefault
  {
    if Present(requestToken) then requestToken
    else if Present(current) then current
    else envDefault
  }

  /** Whether the exchange passes its precondition check and contacts the broker. */
  predicate CanExchange(s: MarketState, env: Env, requestToken: Option<string>) {
    Present(env.apiKey) && Present(env.apiSecret) && Present(TokenToUse(requestToken, s.requestToken, env.requestToken))
  }

  /** The message recorded for a failed exchange: the broker's own message if it sent
      one, else the fixed text for HTTP 403, else the transport error's message. */
  function ExchangeError<T>(reply: Reply<T>): (e: string)
    requires !reply.Ok?
    ensures reply.HttpError? && Present(reply.upstreamMessage) ==> e == reply.upstreamMessage.value
    ensures reply.HttpError? && !Present(reply.upstreamMessage) && reply.status == 403 ==> e == ExpiredRequestTokenMessage
    ensures reply.HttpError? && !Present(reply.upstreamMessage) && reply.status != 403 ==> e == reply.message
    ensures reply.Transport? ==> e == reply.message
  {
    match reply
    case HttpError(status, upstream, message) =>
      if Present(upstream) then upstream.value
      else if status == 403 then ExpiredRequestTokenMessage
      else message
    case Transport(message) => message
  }

  /** `generateAccessToken(requestToken)` (server.js:67-129) given the broker's reply. */
  function Generate(s: MarketState, env: Env, requestToken: Option<string>, reply: Reply<Option<string>>): (r: GenerateStep)
    // the exchange never touches the prices
    ensures r.state.currentPrice == s.currentPrice && r.state.lastClose == s.lastClose && r.state.samples == s.samples
    // missing credentials: no request, only the error text changes
    ensures r.sent.None? <==> !CanExchange(s, env, requestToken)
    ensures !CanExchange(s, env, requestToken) ==>
      r.result == Failed(MissingCredentialsMessage)
      && r.state.accessToken == s.accessToken && r.state.isTokenValid == s.isTokenValid
      && r.state.requestToken == s.requestToken && r.state.tokenError == Some(MissingCredentialsMessage)
    // the request carries the effective request token and the key
    ensures r.sent.Some? ==>
      var token := TokenToUse(requestToken, s.requestToken, env.requestToken).value;
      r.sent.value == ExchangeRequest(env.apiKey.value, token, env.apiKey.value + token + env.apiSecret.value)
    // success
    ensures r.result.Generated? <==> CanExchange(s, env, requestToken) && reply.Ok? && Present(reply.data)
    ensures r.result.Generated? ==>
      r.state.accessToken == Some(r.result.accessToken) && r.result.accessToken == reply.data.value
      && r.state.isTokenValid && r.state.tokenError == None
      && r.state.requestToken == (if Present(requestToken) then requestToken else s.requestToken)
    // broker or transport failure
    ensures CanExchange(s, env, requestToken) && !reply.Ok? ==>
      r.result == Failed(ExchangeError(reply))
      && !r.state.isTokenValid && r.state.tokenError == Some(ExchangeError(reply))
      && r.state.accessToken == s.accessToken && r.state.requestToken == s.requestToken
    // a reply without a token falls through and changes nothing
    ensures CanExchange(s, env, requestToken) && reply.Ok? && !Present(reply.data) ==>
      r.result == NoResult && r.state == s
    ensures r.result.NoResult? ==> r.state == s
  {
    if !CanExchange(s, env, requestToken) then
      GenerateStep(s.(tokenError := Some(MissingCredentialsMessage)), Failed(MissingCredentialsMessage), None)
    else
      var token := TokenToUse(requestToken, s.requestToken, env.requestToken).value;
      var sent := Some(ExchangeRequest(env.apiKey.value, token, env.apiKey.value + token + env.apiSecret.value));
      match reply
      case Ok(accessToken) =>
        if Present(accessToken) then
          var requestToken' := if Present(requestToken) then requestToken else s.requestToken;
          GenerateStep(s.(accessToken := accessToken, isTokenValid := true, tokenError := None, requestToken := requestToken'),
                       Generated(accessToken.value), sent)
        else
          GenerateStep(s, NoResult, sent)
      case _ =>
        var e := ExchangeError(reply);
        GenerateStep(s.(isTokenValid := false, tokenError := Some(e)), Failed(e), sent)
  }

  /** Which branch of `fetchNiftyPrice` a reply takes. */
  function ClassifyFetch(s: MarketState, env: Env, reply: Reply<Option<Quote>>): (o: FetchOutcome)
    ensures o == NotConfigured <==> !Present(env.apiKey) || !Present(s.accessToken)
    ensures o.Fetched? <==> Present(env.apiKey) && Present(s.accessToken) && reply.Ok? && reply.data.Some?
    ensures o.Fetched? ==> o.quote == reply.data.value
    ensures o == Forbidden <==> Present(env.apiKey) && Present(s.accessToken) && reply.HttpError? && reply.status == 403
  {
    if !Present(env.apiKey) || !Present(s.accessToken) then NotConfigured
    else
      match reply
      case Ok(quote) => if quote.Some? then Fetched(quote.value) else Ignored
      case HttpError(status, _, _) => if status == 403 then Forbidden else Ignored
      case Transport(_) => Ignored
  }

  /** `fetchNiftyPrice()` (server.js:131-165) given the quote reply. */
  function Fetch(s: MarketState, env: Env, reply: Reply<Option<Quote>>): (t: MarketState)
    // the fetch never touches the tokens or the error text
    ensures t.accessToken == s.accessToken && t.requestToken == s.requestToken && t.tokenError == s.tokenError
    // success: both prices, validity, and exactly one new sample
    ensures ClassifyFetch(s, env, reply).Fetched? ==>
      var q := ClassifyFetch(s, env, reply).quote;
      t.currentPrice == Some(q.lastPrice) && t.lastClose == Some(q.close) && t.isTokenValid
      && t.samples == s.samples + [q.lastPrice]
    // 403: the token is distrusted, the prices are kept
    ensures ClassifyFetch(s, env, reply) == Forbidden ==>
      !t.isTokenValid && t.currentPrice == s.currentPrice && t.lastClose == s.lastClose && t.samples == s.samples
    // anything else: nothing changes
    ensures ClassifyFetch(s, env, reply) in {NotConfigured, Ignored} ==> t == s
    ensures PriceConsistent(s) ==> PriceConsistent(t)
  {
    match ClassifyFetch(s, env, reply)
    case Fetched(q) =>
      s.(currentPrice := Some(q.lastPrice), lastClose := Some(q.close), isTokenValid := true,
         samples := s.samples + [q.lastPrice])
    case Forbidden => s.(isTokenValid := false)
    case _ => s
  }

  /** The per-minute timer (server.js:167-171): fetch only while the token is trusted. */
  function TimerTick(s: MarketState, env: Env, reply: Reply<Option<Quote>>): (t: MarketState)
    // a tick with a trusted token is exactly one fetch
    ensures s.isTokenValid ==> t == Fetch(s, env, reply)
    // no call at all while the token is distrusted
    ensures !s.isTokenValid ==> t == s
    // polling never touches the tokens or the error text
    ensures t.accessToken == s.accessToken && t.requestToken == s.requestToken && t.tokenError == s.tokenError
  {
    if s.isTokenValid then Fetch(s, env, reply) else s
  }

  /** A run of timer ticks, one reply per tick. */
  function Ticks(s: MarketState, env: Env, replies: seq<Reply<Option<Quote>>>): (t: MarketState)
    // polling never touches the tokens or the error text
    ensures t.accessToken == s.accessToken && t.requestToken == s.requestToken && t.tokenError == s.tokenError
    decreases |replies|
  {
    if replies == [] then s else Ticks(TimerTick(s, env, replies[0]), env, replies[1..])
  }

  /** The guard on the startup fetch and on the manual start (server.js:173, 440). */
  predicate CanStartFetching(s: MarketState) {
    Present(s.accessToken) && s.accessToken.value != PlaceholderAccessToken
  }

  /** The operator's direct token set (server.js:416-419), trusted without checking it
      with the broker. */
  function SetAccessToken(s: MarketState, input: Option<string>): (t: MarketState)
    ensures Present(input) ==>
      t.accessToken == input && t.isTokenValid && t.tokenError == None
      && t.currentPrice == s.currentPrice && t.lastClose == s.lastClose
      && t.requestToken == s.requestToken && t.samples == s.samples
    ensures !Present(input) ==> t == s
  {
    if Present(input) then s.(accessToken := input, isTokenValid := true, tokenError := None) else s
  }

  /** While the token is distrusted, the timer never calls the broker, whatever it
      would have answered: the state stays put. */
  lemma {:induction false} TicksWhileInvalidChangeNothing(s: MarketState, env: Env, replies: seq<Reply<Option<Quote>>>)
    requires !s.isTokenValid
    ensures Ticks(s, env, replies) == s
    decreases |replies|
  {
    if replies != [] {
      TicksWhileInvalidChangeNothing(s, env, replies[1..]);
    }
  }

  /** Ticks only ever append samples and never touch the tokens. */
  lemma {:induction false} TicksAppendSamples(s: MarketState, env: Env, replies: seq<Reply<Option<Quote>>>)
    ensures var t := Ticks(s, env, replies);
      |s.samples| <= |t.samples| && t.samples[..|s.samples|] == s.samples
      && t.accessToken == s.accessToken && t.requestToken == s.requestToken && t.tokenError == s.tokenError
    ensures PriceConsistent(s) ==> PriceConsistent(Ticks(s, env, replies))
    decreases |replies|
  {
    if replies != [] {
      var s' := TimerTick(s, env, replies[0]);
      TicksAppendSamples(s', env, replies[1..]);
      var t := Ticks(s', env, replies[1..]);
      assert t.samples[..|s.samples|] == t.samples[..|s'.samples|][..|s.samples|];
    }
  }

  /** A 403 on a fetch stops the polling for good: the prices seen before survive every
      later tick, until an operator sets or regenerates the token. */
  lemma ForbiddenFetchStopsPolling(s: MarketState, env: Env, reply: Reply<Option<Quote>>, later: seq<Reply<Option<Quote>>>)
    requires s.isTokenValid && ClassifyFetch(s, env, reply) == Forbidden
    ensures var t := Ticks(TimerTick(s, env, reply), env, later);
      !t.isTokenValid && t.currentPrice == s.currentPrice && t.lastClose == s.lastClose && t.samples == s.samples
  {
    TicksWhileInvalidChangeNothing(TimerTick(s, env, reply), env, later);
  }

  /** After the broker rejects the exchange or the call fails (server.js:117-127), the
      polling stops: nothing the timer does afterwards changes the state. */
  lemma FailedExchangeStopsPolling(s: MarketState, env: Env, requestToken: Option<string>,
                                   reply: Reply<Option<string>>, later: seq<Reply<Option<Quote>>>)
    requires CanExchange(s, env, requestToken) && !reply.Ok?
    ensures var t := Generate(s, env, requestToken, reply).state; Ticks(t, env, later) == t
  {
    TicksWhileInvalidChangeNothing(Generate(s, env, requestToken, reply).state, env, later);
  }

  /** With missing credentials the broker is never asked: the outcome is the same
      whatever it would have replied. */
  lemma MissingCredentialsMakeNoCall(s: MarketState, env: Env, requestToken: Option<string>,
                                     reply: Reply<Option<string>>, other: Reply<Option<string>>)
    requires !CanExchange(s, env, requestToken)
    ensures Generate(s, env, requestToken, reply) == Generate(s, env, requestToken, other)
  {
  }

  /** Every transition keeps the in-memory price equal to the latest stored sample. */
  lemma TransitionsKeepPriceConsistent(s: MarketState, env: Env, requestToken: Option<string>, input: Option<string>,
                                       exchange: Reply<Option<string>>, quote: Reply<Option<Quote>>)
    requires PriceConsistent(s)
    ensures PriceConsistent(Generate(s, env, requestToken, exchange).state)
    ensures PriceConsistent(Fetch(s, env, quote))
    ensures PriceConsistent(TimerTick(s, env, quote))
    ensures PriceConsistent(SetAccessToken(s, input))
  {
  }

  /** The process-wide variables and the price table, changed in place. */
  class PriceFeed {
    var currentNiftyPrice: Option<real>
    var lastClosePrice: Option<real>
    var accessToken: Option<string>
    var isTokenValid: bool
    var currentRequestToken: Option<string>
    var tokenError: Option<string>
    var priceSamples: seq<real>

    function State(): MarketState
      reads this
    {
      MarketState(currentNiftyPrice, lastClosePrice, accessToken, isTokenValid,
                  currentRequestToken, tokenError, priceSamples)
    }

    ghost predicate Valid()
      reads this
    {
      PriceConsistent(State())
    }

    /** Process start (server.js:60-65), over a database that already holds `storedSamples`. */
    constructor (env: Env, storedSamples: seq<real>)
      ensures Valid() && State() == Initial(env, storedSamples)
    {
      currentNiftyPrice := None;
      lastClosePrice := None;
      accessToken := env.accessToken;
      isTokenValid := false;
      currentRequestToken := env.requestToken;
      tokenError := None;
      priceSamples := storedSamples;
    }

    /** `generateAccessToken(requestToken)`, with `reply` standing for the awaited
        `POST /session/token`; `sent` is the request made, None when none was. */
    method GenerateAccessToken(env: Env, requestToken: Option<string>, reply: Reply<Option<string>>)
      returns (result: GenerateResult, sent: Option<ExchangeRequest>)
      requires Valid()
      modifies this
      ensures Valid()
      ensures GenerateStep(State(), result, sent) == Generate(old(State()), env, requestToken, reply)
    {
      var apiKey := env.apiKey;
      var apiSecret := env.apiSecret;
      var tokenToUse := TokenToUse(requestToken, currentRequestToken, env.requestToken);
      if !Present(apiKey) || !Present(apiSecret) || !Present(tokenToUse) {
        tokenError := Some(MissingCredentialsMessage);
        return Failed(MissingCredentialsMessage), None;
      }
      var checksumInput := apiKey.value + tokenToUse.value + apiSecret.value;
      sent := Some(ExchangeRequest(apiKey.value, tokenToUse.value, checksumInput));
      match reply {
        case Ok(token) =>
          if Present(token) {
            accessToken := token;
            isTokenValid := true;
            tokenError := None;
            if Present(requestToken) {
              currentRequestToken := requestToken;
            }
            result := Generated(token.value);
          } else {
            result := NoResult;
          }
        case HttpError(_, _, _) =>
          tokenError := Some(ExchangeError(reply));
          isTokenValid := false;
          result := Failed(tokenError.value);
        case Transport(_) =>
          tokenError := Some(ExchangeError(reply));
          isTokenValid := false;
          result := Failed(tokenError.value);
      }
    }

    /** `fetchNiftyPrice()`, with `reply` standing for the awaited `GET /quote`. */
    method FetchNiftyPrice(env: Env, reply: Reply<Option<Quote>>)
      requires Valid()
      modifies this
      ensures Valid()
      ensures State() == Fetch(old(State()), env, reply)
    {
      if !Present(env.apiKey) || !Present(accessToken) {
        return;
      }
      match reply {
        case Ok(quote) =>
          if quote.Some? {
            currentNiftyPrice := Some(quote.value.lastPrice);
            lastClosePrice := Some(quote.value.close);
            isTokenValid := true;
            priceSamples := priceSamples + [quote.value.lastPrice];
          }
        case HttpError(status, _, _) =>
          if status == 403 {
            isTokenValid := false;
          }
        case Transport(_) =>
      }
    }

    /** One firing of the per-minute timer. */
    method Tick(env: Env, reply: Reply<Option<Quote>>)
      requires Valid()
      modifies this
      ensures Valid()
      ensures State() == TimerTick(old(State()), env, reply)
    {
      if isTokenValid {
        FetchNiftyPrice(env, reply);
      }
    }

    /** The startup fetch and `POST /admin/start-fetching`: fetch when a real-looking
        access token is configured, and say whether it did. */
    method StartFetching(env: Env, reply: Reply<Option<Quote>>) returns (started: bool)
      requires Valid()
      modifies this
      ensures Valid()
      ensures started == CanStartFetching(old(State()))
      ensures State() == if started then Fetch(old(State()), env, reply) else old(State())
    {
      started := Present(accessToken) && accessToken.value != PlaceholderAccessToken;
      if started {
        FetchNiftyPrice(env, reply);
      }
    }

    /** `POST /admin/update-access-token`: trust the operator's token, then fetch. */
    method UpdateAccessToken(env: Env, input: Option<string>, reply: Reply<Option<Quote>>) returns (success: bool)
      requires Valid()
      modifies this
      ensures Valid()
      ensures success == Present(input)
      ensures State() == if success then Fetch(SetAccessToken(old(State()), input), env, reply) else old(State())
    {
      success := Present(input);
      if success {
        accessToken := input;
        isTokenValid := true;
        tokenError := None;
        FetchNiftyPrice(env, reply);
      }
    }

    /** `POST /admin/refresh-token`: regenerate, and fetch only after a success. */
    method RefreshToken(env: Env, requestToken: Option<string>, exchange: Reply<Option<string>>,
                        quote: Reply<Option<Quote>>) returns (result: GenerateResult)
      requires Valid()
      modifies this
      ensures Valid()
      ensures var step := Generate(old(State()), env, requestToken, exchange);
        result == step.result
        && State() == if result.Generated? then Fetch(step.state, env, quote) else step.state
    {
      var sent;
      result, sent := GenerateAccessToken(env, requestToken, exchange);
      if result.Generated? {
        FetchNiftyPrice(env, quote);
      }
    }
  }
}

=== FILE: ranking.dfy ===
/** The leaderboard of the home page (server.js:185-218): the active contest's three
    predictions closest to a reference price. The reference is the in-memory price when
    it is truthy, else the latest stored sample (`ORDER BY fetched_at DESC LIMIT 1`).
    The SQL `ORDER BY ABS(predicted_value - ref) LIMIT 3` is modelled by a stable
    insertion sort on the distance followed by taking the first three rows. */
module Ranking {
  import opened Wrappers
  import opened Js
  import opened Contests
  import Market

  /** `LIMIT 3` */
  const TopCount: nat := 3

  /** `ABS(predicted_value - ref)` */
  function Distance(p: Prediction, reference: real): real {
    if p.value >= reference then p.value - reference else reference - p.value
  }

  ghost predicate SortedByDistance(s: seq<Prediction>, reference: real) {
    forall i, j :: 0 <= i < j < |s| ==> Distance(s[i], reference) <= Distance(s[j], reference)
  }

  /** Puts `p` in front of the first row strictly farther away. */
  function InsertByDistance(p: Prediction, s: seq<Prediction>, reference: real): (r: seq<Prediction>)
    ensures multiset(r) == multiset(s) + multiset{p}
  {
    if s == [] || Distance(p, reference) <= Distance(s[0], reference) then
      [p] + s
    else
      assert s == [s[0]] + s[1..];
      [s[0]] + InsertByDistance(p, s[1..], reference)
  }

  /** A lower bound on the distances of `s` and of `p` bounds the result too. */
  lemma InsertKeepsLowerBound(p: Prediction, s: seq<Prediction>, reference: real, bound: real)
    requires bound <= Distance(p, reference)
    requires forall k :: 0 <= k < |s| ==> bound <= Distance(s[k], reference)
    ensures forall j :: 0 <= j < |InsertByDistance(p, s, reference)| ==>
      bound <= Distance(InsertByDistance(p, s, reference)[j], reference)
  {
    var r := InsertByDistance(p, s, reference);
    forall j | 0 <= j < |r| ensures bound <= Distance(r[j], reference) {
      assert r[j] in multiset(r);
      if r[j] != p {
        assert r[j] in multiset(s);
        var k :| 0 <= k < |s| && s[k] == r[j];
      }
    }
  }

  /** Inserting into a sorted list keeps it sorted. */
  lemma {:induction false} InsertKeepsSorted(p: Prediction, s: seq<Prediction>, reference: real)
    requires SortedByDistance(s, reference)
    ensures SortedByDistance(InsertByDistance(p, s, reference), reference)
    decreases |s|
  {
    if s != [] && Distance(p, reference) > Distance(s[0], reference) {
      var t := InsertByDistance(p, s[1..], reference);
      InsertKeepsSorted(p, s[1..], reference);
      assert forall k :: 0 <= k < |s[1..]| ==> Distance(s[0], reference) <= Distance(s[1..][k], reference) by {
        forall k | 0 <= k < |s[1..]| ensures Distance(s[0], reference) <= Distance(s[1..][k], reference) {
          assert s[1..][k] == s[k + 1];
        }
      }
      InsertKeepsLowerBound(p, s[1..], reference, Distance(s[0], reference));
      assert forall k :: 0 <= k < |t| ==> Distance(s[0], reference) <= Distance(t[k], reference);
      var r := [s[0]] + t;
      assert r == InsertByDistance(p, s, reference);
      forall i, j | 0 <= i < j < |r| ensures Distance(r[i], reference) <= Distance(r[j], reference) {
        assert r[j] == t[j - 1];
        if i > 0 {
          assert r[i] == t[i - 1];
        } else {
          assert r[i] == s[0];
          assert Distance(s[0], reference) <= Distance(t[j - 1], reference);
        }
      }
    }
  }

  /** The rows ordered by distance, closest first; a permutation of `s`. */
  function SortByDistance(s: seq<Prediction>, reference: real): (r: seq<Prediction>)
    ensures multiset(r) == multiset(s)
    ensures SortedByDistance(r, reference)
  {
    if s == [] then []
    else
      assert s == [s[0]] + s[1..];
      InsertKeepsSorted(s[0], SortByDistance(s[1..], reference), reference);
      InsertByDistance(s[0], SortByDistance(s[1..], reference), reference)
  }

  /** `ORDER BY ABS(predicted_value - ref) LIMIT 3` over the rows `ps`. */
  function Rank(ps: seq<Prediction>, reference: real): (r: seq<Prediction>)
    ensures |r| == if |ps| < TopCount then |ps| else TopCount
    ensures SortedByDistance(r, reference)
    ensures multiset(r) <= multiset(ps)
  {
    var sorted := SortByDistance(ps, reference);
    var k := if |sorted| < TopCount then |sorted| else TopCount;
    assert sorted == sorted[..k] + sorted[k..];
    assert |sorted| == |multiset(sorted)| == |ps|;
    sorted[..k]
  }

  /** The ranking keeps the closest rows: every row left out is at least as far from
      the reference as every row shown. */
  lemma RankIsClosest(ps: seq<Prediction>, reference: real, p: Prediction, q: Prediction)
    requires p in Rank(ps, reference)
    requires q in ps && q !in Rank(ps, reference)
    ensures Distance(p, reference) <= Distance(q, reference)
  {
    var sorted := SortByDistance(ps, reference);
    var k := |Rank(ps, reference)|;
    assert Rank(ps, reference) == sorted[..k];
    assert q in multiset(sorted);
    var j :| 0 <= j < |sorted| && sorted[j] == q;
    assert j >= k;
    var i :| 0 <= i < k && sorted[..k][i] == p;
    assert sorted[i] == p;
  }

  /** `WHERE contest_id = ?`: the contest's rows, in table order. */
  function ForContest(ps: seq<Prediction>, contestId: nat): (r: seq<Prediction>)
    ensures forall i :: 0 <= i < |r| ==> r[i].contestId == contestId
    ensures multiset(r) <= multiset(ps)
  {
    if ps == [] then []
    else
      assert ps == [ps[0]] + ps[1..];
      if ps[0].contestId == contestId then [ps[0]] + ForContest(ps[1..], contestId)
      else ForContest(ps[1..], contestId)
  }

  /** Every row of the contest is a candidate. */
  lemma {:induction false} ForContestKeepsRows(ps: seq<Prediction>, contestId: nat, p: Prediction)
    requires p in ps && p.contestId == contestId
    ensures p in ForContest(ps, contestId)
    decreases |ps|
  {
    if ps[0] != p {
      ForContestKeepsRows(ps[1..], contestId, p);
    }
  }

  /** `SELECT price FROM nifty_prices ORDER BY fetched_at DESC LIMIT 1`: the sample
      appended last. */
  function LatestSample(samples: seq<real>): (r: Option<real>)
    ensures r.None? <==> samples == []
    ensures samples != [] ==> r == Some(samples[|samples| - 1])
  {
    if samples == [] then None else Some(samples[|samples| - 1])
  }

  /** The in-memory price if it is truthy, else the latest stored sample. */
  function Reference(currentPrice: Option<real>, samples: seq<real>): (r: Option<real>)
    ensures Known(currentPrice) ==> r == currentPrice
    ensures !Known(currentPrice) ==> r == LatestSample(samples)
  {
    if Known(currentPrice) then currentPrice else LatestSample(samples)
  }

  /** The rows shown out of the contest's rows: ranked when there is a reference, else
      the first three, since `ORDER BY NULL` leaves the order to the database. */
  function Shown(entries: seq<Prediction>, reference: Option<real>): (r: seq<Prediction>)
    ensures |r| <= TopCount && |r| <= |entries|
    ensures multiset(r) <= multiset(entries)
    ensures reference.Some? ==> r == Rank(entries, reference.value)
  {
    if reference.Some? then Rank(entries, reference.value)
    else
      var k := if |entries| < TopCount then |entries| else TopCount;
      assert entries == entries[..k] + entries[k..];
      entries[..k]
  }

  /** Rows drawn from one contest's rows belong to that contest. */
  lemma SameContest(r: seq<Prediction>, entries: seq<Prediction>, contestId: nat)
    requires multiset(r) <= multiset(entries)
    requires forall i :: 0 <= i < |entries| ==> entries[i].contestId == contestId
    ensures forall i :: 0 <= i < |r| ==> r[i].contestId == contestId
  {
    forall i | 0 <= i < |r| ensures r[i].contestId == contestId {
      assert r[i] in multiset(r);
      assert r[i] in multiset(entries);
      var k :| 0 <= k < |entries| && entries[k] == r[i];
    }
  }

  /** The home page's `topPredictions`: nothing without an active contest, else at most
      three of the active contest's predictions, ranked by distance to the reference. */
  function TopPredictions(contests: seq<Contest>, predictions: seq<Prediction>,
                          currentPrice: Option<real>, samples: seq<real>): (r: seq<Prediction>)
    ensures |r| <= TopCount
    ensures ActiveContest(contests).None? ==> r == []
    ensures ActiveContest(contests).Some? ==>
      multiset(r) <= multiset(predictions)
      && forall i :: 0 <= i < |r| ==> r[i].contestId == ActiveContest(contests).value.id
    ensures ActiveContest(contests).Some? && Reference(currentPrice, samples).Some? ==>
      r == Rank(ForContest(predictions, ActiveContest(contests).value.id), Reference(currentPrice, samples).value)
  {
    var active := ActiveContest(contests);
    if active.None? then []
    else
      var entries := ForContest(predictions, active.value.id);
      var r := Shown(entries, Reference(currentPrice, samples));
      SameContest(r, entries, active.value.id);
      r
  }

  /** The leaderboard shows the contest's closest predictions: any prediction of the
      active contest that is not shown is at least as far from the reference as every
      one that is. */
  lemma TopPredictionsAreClosest(contests: seq<Contest>, predictions: seq<Prediction>,
                                 currentPrice: Option<real>, samples: seq<real>, p: Prediction, q: Prediction)
    requires ActiveContest(contests).Some? && Reference(currentPrice, samples).Some?
    requires p in TopPredictions(contests, predictions, currentPrice, samples)
    requires q in predictions && q.contestId == ActiveContest(contests).value.id
    requires q !in TopPredictions(contests, predictions, currentPrice, samples)
    ensures Distance(p, Reference(currentPrice, samples).value) <= Distance(q, Reference(currentPrice, samples).value)
  {
    var entries := ForContest(predictions, ActiveContest(contests).value.id);
    ForContestKeepsRows(predictions, ActiveContest(contests).value.id, q);
    RankIsClosest(entries, Reference(currentPrice, samples).value, p, q);
  }

  /** While the feed keeps its in-memory price equal to the latest stored sample, both
      SQL branches of the home page rank against that latest sample. */
  lemma ReferenceIsLatestSample(s: Market.MarketState)
    requires Market.PriceConsistent(s)
    ensures Reference(s.currentPrice, s.samples) == LatestSample(s.samples)
  {
  }
}

=== FILE: wrappers.dfy ===
/** Optional values: JavaScript's `null`/`undefined` next to a present value. */
module Wrappers {

  datatype Option<+T> = None | Some(value: T)
}
